=== FILE: README.md ===
# Video repository model

A Dafny model of `VideosRepository` (lib/youtube/videoRepository.js). This class is the data-access layer for a catalogue of YouTube videos. Each video carries a denormalized snapshot of its channel. The model covers four parts of the class:

- **Query building.** `getPaginatedVideos` and `getAllVideos` turn a loose `filters` object into a store query. They apply the filters one after another, in source order, and a later filter may overwrite an earlier one. A filter counts as present when it is truthy in JavaScript. In `getPaginatedVideos` the tri-state flags `visible` and `applied` respond only to the strings `"true"` and `"false"`, compared with `===`. `getAllVideos` compares `visible` with `==`, so an array such as `["true"]` also responds.
- **Pagination.** Covers the skip, the page window, the item count and the page total of `getPaginatedVideos`, together with `countVideos` and `getAllVideos`. The store is abstract: it answers `find(query).sort(sort)` with an ordered sequence and `countDocuments(query)` with a number, and either read may instead refuse the query with an error that the call passes on.
- **Write commands.** `insertVideos`, `bulkInsert`, `update` and `bulkUpdate` check their input and then build insert and update commands. Separately, `ApplySet` gives the `$set` semantics, which is used to state what an update leaves untouched.
- **`updateChannelApplied`.** This is a transition of a store that holds the channel collection and the video collection as sequences.

Modules:

- `Wrappers` and `RepoErrors`: `Option`, `Result`, and the errors the operations end in.
- `JsValues`: JavaScript values, truthiness, `String(v)`, and loose equality against a word.
- `VideoQueries`: the query representation (one optional clause per field path), the two builders, a field-by-field reference rule for each builder, and the lemmas about them.
- `Pagination`: the reads over an abstract store.
- `WriteOps`: the insert and update commands.
- `ChannelApplied`: the counter increment and the snapshot fan-out.

Three behaviours of the code are easy to misread:

- `updateChannelApplied` never reaches its fourth step (marking the triggering video applied). The statement at line 265 reads an undeclared `videoId`. Every call whose counter increment succeeds therefore ends in a ReferenceError, after the increment and the fan-out have been written. A found channel whose `applied_videos` is not a number makes `$inc` fail, and then nothing is written. `ChannelApplied.UpdateChannelApplied` models exactly this.
- `getAllVideos` puts `channels_ids` on `channel_id`, which overwrites a `channel_id` filter. It compares `visible` loosely, so `["true"]` counts as `"true"`. It filters `channel.adm_channel_id` by equality.
- `getPaginatedVideos` puts `channels_ids` on `channel._id`. It filters `channel.adm_channels` with an `$elemMatch` of either id form.

## Model

| member | source | states |
|---|---|---|
| JsValues.LooseEqualsWordCharacterized | lib/youtube/videoRepository.js:148-153 | `v == "true"` (loose) holds exactly when `v` is that string or an array whose joined string form is that word; it is otherwise no different from `===` |
| JsValues.SingletonArrayLooselyEqualsWord | lib/youtube/videoRepository.js:148 | a one-element array holding the word is loosely equal to it though not strictly equal |
| VideoQueries.PaginatedQuery | lib/youtube/videoRepository.js:31-35 | building the paginated query fails exactly when `channels_ids` is truthy but not an array (`.map` throws), and with that error |
| VideoQueries.PaginatedQueryFollowsRule | lib/youtube/videoRepository.js:23-96 | the sequential, overwriting construction asks of every field path exactly what an independent per-field rule says |
| VideoQueries.AllQueryFollowsRule | lib/youtube/videoRepository.js:118-168 | the same for `getAllVideos`, built by `VideoQueries.AllQuery`, whose rule has `channels_ids` replace `channel_id`, loose `visible`, and no `_id`, `favorite` or `applied` filter |
| VideoQueries.FalsyFiltersAreUnset | lib/youtube/videoRepository.js:28-95 | a falsy filter value (`""`, `0`, `false`, `null`, NaN) gives the same query, in both builders, as leaving the filter out |
| VideoQueries.NoFiltersGiveEmptyQuery | lib/youtube/videoRepository.js:23-25 | with the default `filters = {}` both builders produce the empty query |
| VideoQueries.FlagFiltersAreTriState | lib/youtube/videoRepository.js:43-71 | `visible`/`applied` ask for `true` iff the string "true", for `false` iff "false", nothing otherwise (the boolean `true` included); `favorite` asks for `true` iff truthy and never for `false`; `getAllVideos` has no `applied` or `favorite` clause |
| VideoQueries.PublicationBoundsMerge | lib/youtube/videoRepository.js:48-53 | one `published_at` range exists iff either date is given; it has `$gte` iff `published_after` and `$lte` iff `published_before`, holding those dates; both builders agree |
| VideoQueries.ChannelFiltersKeys | lib/youtube/videoRepository.js:122-127 | in `getAllVideos` a truthy `channels_ids` replaces the `channel_id` clause; in `getPaginatedVideos` it lands on the distinct key `channel._id` and both clauses stay |
| VideoQueries.BuildersAgree | lib/youtube/videoRepository.js:118-168 | the two builders ask the same of every shared path, of `channel_id` when `channels_ids` is absent, and of `visible` unless it is an array |
| VideoQueries.ArrayVisibleSplitsBuilders | lib/youtube/videoRepository.js:148-149 | `visible: ["true"]` makes `getAllVideos` ask for visible videos while `getPaginatedVideos` asks nothing of `visible` |
| VideoQueries.PaginatedQueryNarrows | lib/youtube/videoRepository.js:23-96 | when the larger filter set builds, so does the smaller, and setting the extra filters keeps or tightens every clause of the paginated query |
| VideoQueries.AllQueryNarrows | lib/youtube/videoRepository.js:118-168 | the same for `getAllVideos`, except when `channels_ids` is added to a lone `channel_id` |
| VideoQueries.AllQueryChannelsIdsReplacesChannelId | lib/youtube/videoRepository.js:122-127 | adding `channels_ids: ["B"]` to `channel_id: "A"` drops the `"A"` clause, so the query does not narrow |
| Pagination.CeilDiv | lib/youtube/videoRepository.js:106 | `Math.ceil(n / limit)` is the least page count whose pages of `limit` hold `n` items |
| Pagination.Window | lib/youtube/videoRepository.js:101 | `.skip(s).limit(l)` returns at most `l` documents, the ones at offsets `s`, `s+1`, … of the ordered result, and none past its end |
| Pagination.CountVideos | lib/youtube/videoRepository.js:13-15 | on a consistent store a refused count means the unfiltered find is refused too, and an answered find fixes the count at the number of documents it returns; when `find` also accepts the default sort, the count fails exactly when that find does |
| Pagination.GetPaginatedVideos | lib/youtube/videoRepository.js:23-110 | fails with the query's error when building the query fails, otherwise with the find's error, otherwise with the count's error, and with no other error; on success at most `limit` documents taken in sort order from offset `(page-1)*limit` of the same query that is counted, `totalPages` the ceiling of `totalItems / limit`, and `limit` and `currentPage` echoed |
| Pagination.GetAllVideos | lib/youtube/videoRepository.js:171-174 | on a consistent store the read fails whenever counting the same query fails, and a successful read returns as many documents as the store counts for it; when `find` accepts the sort in use, the read fails exactly when the count does |
| Pagination.SortReplacesDefault | lib/youtube/videoRepository.js:98-101 | both reads hand a truthy `options.sort` to the store exactly as given, with nothing of the default merged in, and `{published_at: -1}` otherwise (likewise line 171); the page is the window of that very read |
| Pagination.UnfilteredPageCountsCollection | lib/youtube/videoRepository.js:105 | with no filters a page's `totalItems` equals what `countVideos` returns, and when `countVideos` fails no page is produced |
| Pagination.OffsetWithinTotal | lib/youtube/videoRepository.js:106 | the offset `(page-1)*limit` lies within `n` items exactly when `page <= ceil(n / limit)` |
| Pagination.PageContents | lib/youtube/videoRepository.js:101-108 | on a consistent store a built query gives a page exactly when `find` accepts it under the sort in use (a sort the driver refuses gives none); the page is empty exactly when `page > totalPages`, and otherwise holds `limit` documents or the remainder |
| Pagination.TwelveMatchesSecondPage | lib/youtube/videoRepository.js:101-108 | 12 matches at 10 per page: the call succeeds exactly when `find` accepts the sort, and then page 2 holds 2 documents out of 2 pages |
| Pagination.SortRefusingStoreIsConsistent | lib/youtube/videoRepository.js:101-105 | a store whose `find` refuses the sort `true` while `countDocuments` accepts the query is consistent, and a page asked for with that sort ends in the refusal |
| Pagination.PagesFromCoverRest | lib/youtube/videoRepository.js:24 | windows of one fixed ordered result, read one after another from offset `skip`, return every remaining document of it exactly once and in order |
| WriteOps.InsertVideos | lib/youtube/videoRepository.js:200-211 | fails with an argument error exactly when `data` is not a non-empty array; otherwise one ordered `insertMany` of exactly those documents |
| WriteOps.InsertOps | lib/youtube/videoRepository.js:312-314 | one `insertOne` per document, in order |
| WriteOps.BulkInsert | lib/youtube/videoRepository.js:306-321 | the same input check as `insertVideos`, then the i-th op inserts the i-th document |
| WriteOps.InsertOpsRoundTrip | lib/youtube/videoRepository.js:312-314 | the documents the built batch inserts are the input documents, in order |
| WriteOps.BulkInsertRoundTrip | lib/youtube/videoRepository.js:200-211 | `bulkInsert` accepts exactly the inputs `insertVideos` accepts, and both insert the same documents in the same order |
| WriteOps.OwnFields | lib/youtube/videoRepository.js:224 | destructuring fails only on `null`/`undefined`; an object yields its fields; no non-object yields an `_id` |
| WriteOps.Update | lib/youtube/videoRepository.js:219-236 | fails only on `null`/`undefined`; otherwise an update filtered by the ObjectId of the item's `_id` whose `$set` holds exactly the item's other fields with their values, and never `_id` |
| WriteOps.ApplySet | lib/youtube/videoRepository.js:229 | `$set` writes every supplied field, an `undefined` value as `null`, and leaves every other stored field as it was |
| WriteOps.UpdateKeepsIdAndUntouchedFields | lib/youtube/videoRepository.js:219-230 | applying the update keeps the stored `_id`, writes every supplied field but `_id` (an `undefined` value as `null`), leaves fields the item does not mention untouched, and adds nothing else |
| WriteOps.UpdateRoundTrip | lib/youtube/videoRepository.js:221-224 | the item is recovered from its update: the filter's `_id` together with the `$set` fields |
| WriteOps.UpdateOps | lib/youtube/videoRepository.js:279-288 | the batch fails exactly when some item is `null`/`undefined`; otherwise the i-th op is what `update` builds for the i-th item |
| WriteOps.BulkUpdate | lib/youtube/videoRepository.js:276-298 | `items.map` throws: on `null`/`undefined` as a property read of a nullish value, on any other non-array as not an array; an array gives the per-item batch |
| ChannelApplied.FirstMatch | lib/youtube/videoRepository.js:249-250 | the document `findOneAndUpdate` picks: none iff nothing matches; otherwise a match with no match before it |
| ChannelApplied.Increment | lib/youtube/videoRepository.js:251 | `$inc: 1` succeeds exactly on a missing, numeric or NaN value; the result is one more than the old value, a missing counter counting as 0 |
| ChannelApplied.IncrementField | lib/youtube/videoRepository.js:251 | the incremented channel differs from the stored one only in `applied_videos` |
| ChannelApplied.FanOut | lib/youtube/videoRepository.js:262 | every video whose `channel_id` matches gets `channel` set to the snapshot; every other video is unchanged |
| ChannelApplied.UpdateChannelApplied | lib/youtube/videoRepository.js:244-268 | the call never returns a channel; on `null`/`undefined` it fails before any write |
| ChannelApplied.ChannelNotFoundChangesNothing | lib/youtube/videoRepository.js:255-257 | when no channel matches, the call fails with ChannelNotFound and the store is unchanged |
| ChannelApplied.UpdateChannelAppliedEffect | lib/youtube/videoRepository.js:244-265 | the matched channel's counter rises by exactly 1 and nothing else about the channels changes; matching videos get the post-increment channel, others are unchanged; the call ends in the ReferenceError of line 265 |
| ChannelApplied.SnapshotsAgreeAfterCall | lib/youtube/videoRepository.js:259-262 | whenever the increment succeeds (a missing, numeric or NaN counter), afterwards every video of the channel holds a snapshot identical to the stored channel |
| ChannelApplied.CallKeepsChannelFirst | lib/youtube/videoRepository.js:249-253 | after a call the same channel is still the first match and its counter is numeric and one higher |
| ChannelApplied.RepeatedCallsCountEach | lib/youtube/videoRepository.js:249-253 | `n` successive calls for a video of one channel raise its counter by exactly `n` |

## Left out

- ObjectId and Date coercions are opaque terms. The model does not cover `new ObjectId(...)` throwing on a malformed id, `new ObjectId(undefined)` generating a fresh id, or `new Date(...)` parsing.
- `$regex` / `$options: 'i'` is a tagged clause. Patterns are not evaluated.
- How the store matches a query against a document and orders the matches, and how `countDocuments`, `insertMany`, `bulkWrite` and `updateOne` run, are left to the abstract store. `skip` and `limit` are not: the model applies them itself, as `Window` of the ordered result `find` returns. That includes ordered-insert failure handling and the driver's rejection of an empty bulk batch. For the two reads the store's refusal is modelled (`Store` answers with a `Result`); which queries it refuses (a `$in` whose operand is a string, a `$regex` that does not compile) is its own business.
- Pagination.GetPaginatedVideos: the two `countDocuments(query)` calls (lines 105 and 106) are read as one count of a store that does not change during the call, so `totalPages` is always the ceiling of `totalItems / limit`. A write or a transient failure between the two reads, which could make them disagree or fail separately, is not modelled.
- Pagination.PagesFromCoverRest: assumes that the store's order is total and the same on every call, so that successive pages are windows of one sequence. That holds only when the sort includes a unique field. The default `{published_at: -1}` has ties, and the store may order tied documents differently from one `skip`/`limit` call to the next, so real pages can repeat or skip documents. The model's `find` returns one fixed sequence per query and sort, and does not describe this.
- Pagination.GetPaginatedVideos: requires `page >= 1` and `limit >= 1`. The source does not check these. For other values the store's behaviour decides the outcome (for example, `limit(0)` means no limit), and that behaviour is not modelled.
- `filters = null` or `options = null` (a TypeError on property access) is not modelled. The filters are a record of seventeen JavaScript values, and `undefined` stands for an absent property.
- Numbers are integers or NaN. Fractional numbers and `Infinity` are not modelled. Objects with a custom `toString` are not modelled: every object converts to "[object Object]".
- ChannelApplied.UpdateChannelAppliedEffect: covers only counters that are missing or numeric. For NaN, `Increment` states that the value stays NaN. For other types, `$inc` fails with IncOnNonNumeric before any write.
- `findOneAndUpdate`'s atomicity and concurrent callers are not modelled. Calls are sequential transitions. `RepeatedCallsCountEach` states the sequential count only.
- `result.value` is read in the shape returned by drivers that wrap the document in a ModifyResult. Under a driver that returns the document directly, `result.value` is `undefined`, so the call would throw ChannelNotFound even when a channel matched; this is not modelled.
- The `applied: true` write at line 265 is never reached, because `videoId` is undeclared, so it is not modelled as a successful step.
- `getbyVideolId` (lines 182-184) and `insertVideo` (lines 191-193) pass their argument straight to a single store call. They have no logic of their own.
- `enableDesable` (lines 270-273) reads an undeclared `id` and ignores its argument. Every call throws before writing.
- Object key order is not modelled: a JavaScript object is an unordered map here. A compound `options.sort` such as `{a: 1, b: -1}` is therefore the same value as `{b: -1, a: 1}`, although the store sorts by key order. The model only passes the sort on, and never compares two sorts.
- WriteOps.ApplySet: writes every key as a literal top-level field. The store reads a key containing "." as a path into an embedded document and refuses a key starting with "$"; neither is modelled. An `undefined` nested inside an array or object value is kept as given, though the driver stores it as `null`.
- WriteOps.UpdateKeepsIdAndUntouchedFields: describes items whose keys are plain field names. An item with a dotted key such as `"channel.name"` changes part of the stored `channel` field, which this lemma does not describe.
- ChannelApplied.FirstMatch: its equality test `Matches`, which `FanOut` uses too, compares embedded documents regardless of key order, while the store's equality on embedded documents is order-sensitive. It reads an object filter value holding `$`-operators as a literal value rather than as an operator.
- ChannelApplied.Increment: counters are unbounded integers. The store's int32, int64 and double counter types, promotion on int32 overflow and the error on int64 overflow are not modelled.
- ChannelApplied.UpdateChannelApplied: the store can also refuse the `findOneAndUpdate` or the fan-out `updateMany` for reasons other than a non-numeric counter, such as a document growing past the size limit. This is not modelled.
- Console logging and the catch-and-rethrow wrappers are not modelled: they do not change results.
- pages/CanaisAdm.js and components/VideoDisplayComponent.jsx are React rendering and `fetch` calls. Neither is part of this model.

=== FILE: channel_applied.dfy ===
/** `updateChannelApplied(video)` as a transition of an abstract store holding
    the channel collection and the video collection, each in natural order. */
module ChannelApplied {
  import opened Wrappers
  import opened JsValues
  import opened RepoErrors

  /** The two collections the operation writes to. */
  datatype Db = Db(channels: seq<Document>, videos: seq<Document>)

  /** The channel field the channel lookup filters on. */
  const ChannelKey := "channelId"
  /** The video field naming the owning channel. */
  const VideoChannelKey := "channel_id"
  /** The channel's counter of applied videos. */
  const CounterKey := "applied_videos"
  /** The video field holding the denormalized channel snapshot. */
  const SnapshotKey := "channel"

  /** The store's equality filter `{key: v}`: an `undefined` or `null` value
      matches a missing or null field, and an array field matches when one of
      its elements equals `v`. */
  predicate Matches(d: Document, key: string, v: JsValue) {
    var f := FieldOf(d, key);
    if v.Undefined? || v.Null? then f.Undefined? || f.Null?
    else f == v || (f.Arr? && v in f.elems)
  }

  /** The position of the first document in natural order that matches. */
  function FirstMatch(ds: seq<Document>, key: string, v: JsValue): (r: Option<nat>)
    ensures r.None? <==> forall i :: 0 <= i < |ds| ==> !Matches(ds[i], key, v)
    ensures r.Some? ==> r.value < |ds| && Matches(ds[r.value], key, v)
    ensures r.Some? ==> forall j :: 0 <= j < r.value ==> !Matches(ds[j], key, v)
  {
    if |ds| == 0 then None
    else if Matches(ds[0], key, v) then Some(0)
    else match FirstMatch(ds[1..], key, v)
      case None =>
        assert forall i :: 1 <= i < |ds| ==> ds[i] == ds[1..][i - 1];
        None
      case Some(i) =>
        assert forall j :: 1 <= j < i + 1 ==> ds[j] == ds[1..][j - 1];
        Some(i + 1)
  }

  /** The counter's value as a number, a missing counter counting as 0. */
  function CounterValue(x: JsValue): int {
    if x.Num? then x.n else 0
  }

  /** `$inc: 1` on one field value: a missing field starts from 0, NaN stays
      NaN, and any other non-number is a write error. */
  function Increment(x: JsValue): (r: Result<JsValue, RepoError>)
    ensures r.Success? <==> x.Undefined? || x.Num? || x.NaN?
    ensures r.Failure? ==> r.error == IncOnNonNumeric
    ensures r.Success? && !x.NaN? ==> r.value.Num? && r.value.n == CounterValue(x) + 1
    ensures x.NaN? ==> r == Success(NaN)
  {
    match x
    case Undefined => Success(Num(1))
    case Num(n) => Success(Num(n + 1))
    case NaN => Success(NaN)
    case _ => Failure(IncOnNonNumeric)
  }

  /** `{$inc: {key: 1}}` on a document. */
  function IncrementField(d: Document, key: string): (r: Result<Document, RepoError>)
    ensures r.Success? <==> Increment(FieldOf(d, key)).Success?
    ensures r.Failure? ==> r.error == IncOnNonNumeric
    ensures r.Success? ==> r.value.Keys == d.Keys + {key}
    ensures r.Success? ==> r.value[key] == Increment(FieldOf(d, key)).value
    ensures r.Success? ==> forall k :: k in d && k != key ==> r.value[k] == d[k]
  {
    match Increment(FieldOf(d, key))
    case Failure(e) => Failure(e)
    case Success(x) => Success(d[key := x])
  }

  /** `updateMany({channel_id: channelId}, {$set: {channel: snapshot}})`. */
  function FanOut(videos: seq<Document>, channelId: JsValue, snapshot: Document): (r: seq<Document>)
    ensures |r| == |videos|
    ensures forall i :: 0 <= i < |videos| && Matches(videos[i], VideoChannelKey, channelId) ==>
              r[i] == videos[i][SnapshotKey := Obj(snapshot)]
    ensures forall i :: 0 <= i < |videos| && !Matches(videos[i], VideoChannelKey, channelId) ==>
              r[i] == videos[i]
  {
    if |videos| == 0 then []
    else
      var head := if Matches(videos[0], VideoChannelKey, channelId)
                  then videos[0][SnapshotKey := Obj(snapshot)] else videos[0];
      [head] + FanOut(videos[1..], channelId, snapshot)
  }

  /** `video.channel_id`: only an object carries the field. */
  function ChannelIdOf(video: JsValue): JsValue {
    if video.Obj? then FieldOf(video.fields, VideoChannelKey) else Undefined
  }

  /** What one call leaves behind: the store after the writes that took place,
      and the returned channel or the error the call ends with. */
  datatype Outcome = Outcome(db: Db, result: Result<Document, RepoError>)

  /** `updateChannelApplied(video)`: increment the counter of the first channel
      whose `channelId` equals the video's `channel_id`, then copy the
      incremented channel into every video of that channel. The statement
      after the copy reads an undeclared `videoId`, so every call that gets
      that far ends in a ReferenceError with both writes already made. */
  function UpdateChannelApplied(db: Db, video: JsValue): (r: Outcome)
    ensures r.result.Failure?
    ensures video.Undefined? || video.Null? ==> r == Outcome(db, Failure(PropertyOfNullish))
  {
    if video.Undefined? || video.Null? then Outcome(db, Failure(PropertyOfNullish))
    else
      var channelId := ChannelIdOf(video);
      match FirstMatch(db.channels, ChannelKey, channelId)
      case None => Outcome(db, Failure(ChannelNotFound))
      case Some(i) =>
        match IncrementField(db.channels[i], CounterKey)
        case Failure(e) => Outcome(db, Failure(e))
        case Success(updated) =>
          Outcome(Db(db.channels[i := updated], FanOut(db.videos, channelId, updated)),
                  Failure(UndefinedVariable("videoId")))
  }

  /** When no channel matches, the call fails with `ChannelNotFound` and the
      store is left exactly as it was: no channel is created, no video touched. */
  lemma ChannelNotFoundChangesNothing(db: Db, video: JsValue)
    requires !video.Undefined? && !video.Null?
    requires forall i :: 0 <= i < |db.channels| ==> !Matches(db.channels[i], ChannelKey, ChannelIdOf(video))
    ensures UpdateChannelApplied(db, video) == Outcome(db, Failure(ChannelNotFound))
  {
  }

  /** When channel `i` is the first match and its counter is numeric or
      missing, the call raises that counter by exactly one, changes nothing
      else about the channels, gives every video of the channel the
      post-increment channel as its snapshot, leaves every other video alone,
      and still ends in the ReferenceError. */
  lemma UpdateChannelAppliedEffect(db: Db, video: JsValue, i: nat)
    requires !video.Undefined? && !video.Null?
    requires FirstMatch(db.channels, ChannelKey, ChannelIdOf(video)) == Some(i)
    requires FieldOf(db.channels[i], CounterKey).Undefined? || FieldOf(db.channels[i], CounterKey).Num?
    ensures var r := UpdateChannelApplied(db, video);
      && r.result == Failure(UndefinedVariable("videoId"))
      && |r.db.channels| == |db.channels|
      && CounterKey in r.db.channels[i] && r.db.channels[i][CounterKey].Num?
      && r.db.channels[i][CounterKey].n == CounterValue(FieldOf(db.channels[i], CounterKey)) + 1
      && (forall k :: k in db.channels[i] && k != CounterKey ==>
            k in r.db.channels[i] && r.db.channels[i][k] == db.channels[i][k])
      && (forall k :: k in r.db.channels[i] ==> k in db.channels[i] || k == CounterKey)
      && (forall j :: 0 <= j < |db.channels| && j != i ==> r.db.channels[j] == db.channels[j])
      && |r.db.videos| == |db.videos|
      && (forall v :: 0 <= v < |db.videos| && Matches(db.videos[v], VideoChannelKey, ChannelIdOf(video)) ==>
            r.db.videos[v] == db.videos[v][SnapshotKey := Obj(r.db.channels[i])])
      && (forall v :: 0 <= v < |db.videos| && !Matches(db.videos[v], VideoChannelKey, ChannelIdOf(video)) ==>
            r.db.videos[v] == db.videos[v])
  {
  }

  /** After a call that found its channel, every video of that channel holds a
      snapshot identical to the stored channel. */
  lemma SnapshotsAgreeAfterCall(db: Db, video: JsValue, i: nat)
    requires !video.Undefined? && !video.Null?
    requires FirstMatch(db.channels, ChannelKey, ChannelIdOf(video)) == Some(i)
    requires IncrementField(db.channels[i], CounterKey).Success?
    ensures var r := UpdateChannelApplied(db, video);
      forall v :: 0 <= v < |r.db.videos| && Matches(r.db.videos[v], VideoChannelKey, ChannelIdOf(video)) ==>
        SnapshotKey in r.db.videos[v] && r.db.videos[v][SnapshotKey] == Obj(r.db.channels[i])
  {
    var id := ChannelIdOf(video);
    var updated := IncrementField(db.channels[i], CounterKey).value;
    var r := UpdateChannelApplied(db, video);
    assert r.db == Db(db.channels[i := updated], FanOut(db.videos, id, updated));
    assert SnapshotKey != VideoChannelKey;
  }

  /** The store after `n` successive calls for the same video, each one's
      error notwithstanding. */
  function Repeat(db: Db, video: JsValue, n: nat): Db
    decreases n
  {
    if n == 0 then db else Repeat(UpdateChannelApplied(db, video).db, video, n - 1)
  }

  /** One call keeps its channel the first match and its counter numeric. */
  lemma CallKeepsChannelFirst(db: Db, video: JsValue, i: nat)
    requires !video.Undefined? && !video.Null?
    requires FirstMatch(db.channels, ChannelKey, ChannelIdOf(video)) == Some(i)
    requires FieldOf(db.channels[i], CounterKey).Undefined? || FieldOf(db.channels[i], CounterKey).Num?
    ensures var after := UpdateChannelApplied(db, video).db;
      && |after.channels| == |db.channels|
      && FirstMatch(after.channels, ChannelKey, ChannelIdOf(video)) == Some(i)
      && FieldOf(after.channels[i], CounterKey).Num?
      && FieldOf(after.channels[i], CounterKey).n == CounterValue(FieldOf(db.channels[i], CounterKey)) + 1
  {
    UpdateChannelAppliedEffect(db, video, i);
    var after := UpdateChannelApplied(db, video).db;
    var id := ChannelIdOf(video);
    assert ChannelKey != CounterKey;
    assert FieldOf(after.channels[i], ChannelKey) == FieldOf(db.channels[i], ChannelKey);
    assert Matches(after.channels[i], ChannelKey, id);
    var m := FirstMatch(after.channels, ChannelKey, id);
    assert m.Some?;
    assert !(m.value < i);
    assert !(m.value > i);
  }

  /** Successive calls for videos of one channel lose no increment: after `n`
      calls the counter has risen by exactly `n`. */
  lemma {:induction false} RepeatedCallsCountEach(db: Db, video: JsValue, i: nat, n: nat)
    requires !video.Undefined? && !video.Null?
    requires FirstMatch(db.channels, ChannelKey, ChannelIdOf(video)) == Some(i)
    requires FieldOf(db.channels[i], CounterKey).Undefined? || FieldOf(db.channels[i], CounterKey).Num?
    ensures |Repeat(db, video, n).channels| == |db.channels|
    ensures FirstMatch(Repeat(db, video, n).channels, ChannelKey, ChannelIdOf(video)) == Some(i)
    ensures CounterValue(FieldOf(Repeat(db, video, n).channels[i], CounterKey))
            == CounterValue(FieldOf(db.channels[i], CounterKey)) + n
    decreases n
  {
    if n > 0 {
      var after := UpdateChannelApplied(db, video).db;
      assert Repeat(db, video, n) == Repeat(after, video, n - 1);
      CallKeepsChannelFirst(db, video, i);
      RepeatedCallsCountEach(after, video, i, n - 1);
    }
  }
}

=== FILE: js_values.dfy ===
/** The loosely typed JavaScript values that arrive as filters, documents and
    options, together with the two JavaScript conversions the repository relies
    on: truthiness (`if (x)`) and loose equality against a word (`x == "true"`). */
module JsValues {

  /** A JSON-like JavaScript value. Numbers are integers or NaN. */
  datatype JsValue =
    | Undefined
    | Null
    | Bool(b: bool)
    | Num(n: int)
    | NaN
    | Str(s: string)
    | Arr(elems: seq<JsValue>)
    | Obj(fields: map<string, JsValue>)

  /** A stored or supplied document: a plain object's own fields. */
  type Document = map<string, JsValue>

  /** JavaScript truthiness: `undefined`, `null`, `false`, `0`, `NaN` and `""` are
      falsy; every array and object, even an empty one, is truthy. */
  predicate Truthy(v: JsValue) {
    match v
    case Undefined => false
    case Null => false
    case Bool(b) => b
    case Num(n) => n != 0
    case NaN => false
    case Str(s) => s != ""
    case Arr(_) => true
    case Obj(_) => true
  }

  /** Property read `d.k`: a missing property reads as `undefined`. */
  function FieldOf(d: Document, k: string): JsValue
  {
    if k in d then d[k] else Undefined
  }

  predicate IsDigit(c: char) {
    '0' <= c <= '9'
  }

  predicate AllDigits(s: string) {
    forall i :: 0 <= i < |s| ==> IsDigit(s[i])
  }

  /** Decimal rendering of a natural number, as `String(n)` produces it. */
  function NatToDecimal(n: nat): (r: string)
    ensures |r| > 0 && AllDigits(r)
    ensures n < 10 ==> |r| == 1
    ensures n >= 10 ==> |r| > 1 && r[0] != '0'
    decreases n
  {
    var d := ['0' + (n % 10) as char];
    if n < 10 then d else NatToDecimal(n / 10) + d
  }

  /** Decimal rendering of an integer, with a leading minus sign when negative. */
  function IntToDecimal(n: int): (r: string)
    ensures |r| > 0
    ensures n >= 0 <==> IsDigit(r[0])
  {
    if n >= 0 then NatToDecimal(n) else "-" + NatToDecimal(-n)
  }

  /** `String(v)`. Arrays are joined with "," after rendering `null` and
      `undefined` elements as the empty string; plain objects render as
      "[object Object]". */
  function ToStr(v: JsValue): string
    decreases v
  {
    match v
    case Undefined => "undefined"
    case Null => "null"
    case Bool(b) => if b then "true" else "false"
    case Num(n) => IntToDecimal(n)
    case NaN => "NaN"
    case Str(s) => s
    case Arr(es) => Join(es)
    case Obj(_) => "[object Object]"
  }

  /** `es.join(",")`. */
  function Join(es: seq<JsValue>): string
    decreases es
  {
    if |es| == 0 then ""
    else
      var head := if es[0].Undefined? || es[0].Null? then "" else ToStr(es[0]);
      if |es| == 1 then head else head + "," + Join(es[1..])
  }

  /** A word of lower-case letters: a string that `Number(...)` turns into NaN,
      such as "true" or "false". */
  predicate IsPlainWord(w: string) {
    |w| > 0 && forall i :: 0 <= i < |w| ==> 'a' <= w[i] <= 'z'
  }

  /** JavaScript loose equality `v == w` for a plain word `w`. Against a string
      operand, booleans and numbers are compared numerically (and the word is
      NaN), `null` and `undefined` equal nothing but each other, and arrays and
      objects are first converted to their string form. */
  predicate LooseEqualsWord(v: JsValue, w: string)
    requires IsPlainWord(w)
  {
    match v
    case Undefined => false
    case Null => false
    case Bool(_) => false
    case Num(_) => false
    case NaN => false
    case Str(s) => s == w
    case Arr(_) => ToStr(v) == w
    case Obj(_) => ToStr(v) == w
  }

  /** Loose equality against a word differs from strict equality (`===`) only on
      arrays, whose joined string form may spell the word. */
  lemma LooseEqualsWordCharacterized(v: JsValue, w: string)
    requires IsPlainWord(w)
    ensures LooseEqualsWord(v, w) <==> v == Str(w) || (v.Arr? && ToStr(v) == w)
  {
    if v.Obj? {
      assert ToStr(v)[0] == '[';
    }
  }

  /** A one-element array holding the word is loosely equal to it, although it is
      not strictly equal. */
  lemma SingletonArrayLooselyEqualsWord(w: string)
    requires IsPlainWord(w)
    ensures LooseEqualsWord(Arr([Str(w)]), w)
    ensures Arr([Str(w)]) != Str(w)
  {
    assert Join([Str(w)]) == w;
  }
}

=== FILE: pagination.dfy ===
/** Paginated and unpaginated reads: `countVideos`, `getPaginatedVideos` and
    `getAllVideos`. The store is abstract: it answers `find(query).sort(sort)`
    with the matching documents in order, and `countDocuments(query)` with a
    number; how a query matches a document is its own business. */
module Pagination {
  import opened Wrappers
  import opened JsValues
  import opened RepoErrors
  import opened VideoQueries

  /** The video collection, seen through its two read operations. Either read
      may refuse a query, and the refusal reaches the caller as the error the
      repository call ends in. `find` gives one fixed order per query and
      sort; `skip` and `limit` are applied to it by `Window`. */
  datatype Store = Store(find: (Query, JsValue) -> Result<seq<Document>, RepoError>,
                         count: Query -> Result<nat, RepoError>)

  /** A store whose two reads agree: a query `countDocuments` refuses, `find`
      refuses under every sort, and whenever `find` answers, the count is the
      number of documents it returns. `find` may still refuse a sort of its
      own accord (the driver rejects `true` or `{published_at: 2}`), which
      `countDocuments`, taking no sort, never sees. */
  ghost predicate Consistent(s: Store) {
    forall q, sort ::
      && (s.count(q).Failure? ==> s.find(q, sort).Failure?)
      && (s.find(q, sort).Success? ==> s.count(q) == Success(|s.find(q, sort).value|))
  }

  /** `find` accepts `sort` for `q` whenever the count accepts `q`. */
  predicate SortAccepted(s: Store, q: Query, sort: JsValue) {
    s.count(q).Success? ==> s.find(q, sort).Success?
  }

  /** The object `getPaginatedVideos` returns. */
  datatype Page = Page(data: seq<Document>, totalItems: nat, totalPages: nat, limit: int, currentPage: int)

  /** `Math.ceil(n / d)` for a positive divisor: the least number of pages of
      `d` items that hold `n` items. */
  function CeilDiv(n: nat, d: int): (r: nat)
    requires d >= 1
    ensures r * d >= n
    ensures r == 0 || (r - 1) * d < n
  {
    var r := (n + d - 1) / d;
    assert n + d - 1 == r * d + (n + d - 1) % d;
    r
  }

  /** `.skip(skip).limit(limit)` on an ordered result. */
  function Window(all: seq<Document>, skip: nat, limit: nat): (r: seq<Document>)
    ensures |r| <= limit
    ensures skip >= |all| ==> r == []
    ensures skip < |all| ==> |r| == if |all| - skip < limit then |all| - skip else limit
    ensures forall i :: 0 <= i < |r| ==> skip + i < |all| && r[i] == all[skip + i]
  {
    if skip >= |all| then []
    else if |all| - skip < limit then all[skip..]
    else all[skip..skip + limit]
  }

  /** `countVideos`: every document of the collection. */
  function CountVideos(s: Store): (r: Result<nat, RepoError>)
    ensures Consistent(s) && r.Failure? ==> s.find(EmptyQuery, DefaultSort).Failure?
    ensures Consistent(s) && s.find(EmptyQuery, DefaultSort).Success? ==>
              r == Success(|s.find(EmptyQuery, DefaultSort).value|)
    ensures Consistent(s) && SortAccepted(s, EmptyQuery, DefaultSort) ==>
              (r.Success? <==> s.find(EmptyQuery, DefaultSort).Success?)
  {
    s.count(EmptyQuery)
  }

  /** `part` is the run of `all` starting at offset `skip`. */
  predicate SliceAt(part: seq<Document>, all: seq<Document>, skip: nat) {
    forall i :: 0 <= i < |part| ==> skip + i < |all| && part[i] == all[skip + i]
  }

  /** The page object for the ordered matches `all` and the count `n`. */
  function MakePage(all: seq<Document>, n: nat, page: int, limit: int): (r: Page)
    requires page >= 1 && limit >= 1
    ensures |r.data| <= limit
    ensures r.limit == limit && r.currentPage == page && r.totalItems == n
    ensures r.totalPages * limit >= n
    ensures r.totalPages == 0 || (r.totalPages - 1) * limit < n
    ensures SliceAt(r.data, all, (page - 1) * limit)
  {
    Page(Window(all, (page - 1) * limit, limit), n, CeilDiv(n, limit), limit, page)
  }

  /** The reads of `getPaginatedVideos` for a built query: the find, then the
      count, the first refusal ending the call. */
  function ReadPage(s: Store, q: Query, page: int, limit: int, sort: JsValue): (r: Result<Page, RepoError>)
    requires page >= 1 && limit >= 1
  {
    match s.find(q, sort)
    case Failure(e) => Failure(e)
    case Success(found) =>
      match s.count(q)
      case Failure(e) => Failure(e)
      case Success(n) => Success(MakePage(found, n, page, limit))
  }

  /** `getPaginatedVideos(page, limit, filters, options)`. It ends in the first
      error among building the query, the find and the count. Otherwise the
      page holds at most `limit` documents, taken in sort order from offset
      `(page-1)*limit` of the very query that is counted. The source counts
      twice, once for `totalItems` and once for `totalPages`; both are read
      here as one count of a store that does not change during the call. */
  function GetPaginatedVideos(s: Store, page: int, limit: int, f: Filters, sort: JsValue): (r: Result<Page, RepoError>)
    requires page >= 1 && limit >= 1
    ensures PaginatedQuery(f).Failure? ==> r == Failure(PaginatedQuery(f).error)
    ensures PaginatedQuery(f).Success? ==>
      var q := PaginatedQuery(f).value;
      var found := s.find(q, EffectiveSort(sort));
      && (r.Success? <==> found.Success? && s.count(q).Success?)
      && (found.Failure? ==> r == Failure(found.error))
      && (found.Success? && s.count(q).Failure? ==> r == Failure(s.count(q).error))
    ensures r.Success? ==>
      var q := PaginatedQuery(f).value;
      var all := s.find(q, EffectiveSort(sort)).value;
      && |r.value.data| <= limit
      && r.value.limit == limit
      && r.value.currentPage == page
      && r.value.totalItems == s.count(q).value
      && r.value.totalPages * limit >= r.value.totalItems
      && (r.value.totalPages == 0 || (r.value.totalPages - 1) * limit < r.value.totalItems)
      && SliceAt(r.value.data, all, (page - 1) * limit)
  {
    match PaginatedQuery(f)
    case Failure(e) => Failure(e)
    case Success(q) => ReadPage(s, q, page, limit, EffectiveSort(sort))
  }

  /** `getAllVideos(filters, options)`: every matching document, unbounded. */
  function GetAllVideos(s: Store, f: Filters, sort: JsValue): (r: Result<seq<Document>, RepoError>)
    ensures Consistent(s) && s.count(AllQuery(f)).Failure? ==> r.Failure?
    ensures Consistent(s) && r.Success? ==> s.count(AllQuery(f)) == Success(|r.value|)
    ensures Consistent(s) && SortAccepted(s, AllQuery(f), EffectiveSort(sort)) ==>
              (r.Success? <==> s.count(AllQuery(f)).Success?)
  {
    s.find(AllQuery(f), EffectiveSort(sort))
  }

  /** Both reads hand a truthy `options.sort` to the store exactly as given,
      with nothing of the default merged in, and use `{published_at: -1}`
      otherwise. */
  lemma SortReplacesDefault(s: Store, page: int, limit: int, f: Filters, sort: JsValue)
    requires page >= 1 && limit >= 1
    ensures Truthy(sort) ==> GetAllVideos(s, f, sort) == s.find(AllQuery(f), sort)
    ensures !Truthy(sort) ==> GetAllVideos(s, f, sort) == s.find(AllQuery(f), DefaultSort)
    ensures var r := GetPaginatedVideos(s, page, limit, f, sort);
      r.Success? ==>
        var q := PaginatedQuery(f).value;
        var used := if Truthy(sort) then sort else DefaultSort;
        && s.find(q, used).Success?
        && r.value.data == Window(s.find(q, used).value, (page - 1) * limit, limit)
  {
  }

  /** With no filters the page counts the whole collection, as `countVideos`
      does, and a collection `countVideos` cannot count yields no page. */
  lemma UnfilteredPageCountsCollection(s: Store, page: int, limit: int, sort: JsValue)
    requires page >= 1 && limit >= 1
    ensures GetPaginatedVideos(s, page, limit, NoFilters, sort).Success? ==>
              CountVideos(s).Success?
              && GetPaginatedVideos(s, page, limit, NoFilters, sort).value.totalItems == CountVideos(s).value
    ensures CountVideos(s).Failure? ==> GetPaginatedVideos(s, page, limit, NoFilters, sort).Failure?
  {
    NoFiltersGiveEmptyQuery();
  }

  /** `(page-1)*limit < n` exactly when `page` is at most `ceil(n/limit)`. */
  lemma {:induction false} OffsetWithinTotal(n: nat, page: int, limit: int)
    requires page >= 1 && limit >= 1
    ensures (page - 1) * limit < n <==> page <= CeilDiv(n, limit)
  {
    var c := CeilDiv(n, limit);
    if page <= c {
      MulMonotone(page - 1, c - 1, limit);
    } else {
      MulMonotone(c, page - 1, limit);
    }
  }

  lemma MulMonotone(a: int, b: int, m: int)
    requires a <= b && m >= 0
    ensures a * m <= b * m
  {
    assert b * m - a * m == (b - a) * m;
  }

  /** On a consistent store, a built query gives a page exactly when `find`
      accepts it under the sort in use; the page is empty exactly when it lies
      past the last page, and otherwise holds `limit` documents or the
      remainder. */
  lemma PageContents(s: Store, page: int, limit: int, f: Filters, sort: JsValue)
    requires page >= 1 && limit >= 1
    requires Consistent(s)
    requires PaginatedQuery(f).Success?
    ensures GetPaginatedVideos(s, page, limit, f, sort).Success? <==>
              s.find(PaginatedQuery(f).value, EffectiveSort(sort)).Success?
    ensures var r := GetPaginatedVideos(s, page, limit, f, sort);
      r.Success? ==>
        var p := r.value;
        && (p.data == [] <==> page > p.totalPages)
        && |p.data| == if (page - 1) * limit >= p.totalItems then 0
                       else if p.totalItems - (page - 1) * limit < limit then p.totalItems - (page - 1) * limit
                       else limit
  {
    var q := PaginatedQuery(f).value;
    var r := GetPaginatedVideos(s, page, limit, f, sort);
    if s.find(q, EffectiveSort(sort)).Success? {
      assert s.count(q) == Success(|s.find(q, EffectiveSort(sort)).value|);
      var p := r.value;
      assert p.totalItems == |s.find(q, EffectiveSort(sort)).value|;
      OffsetWithinTotal(p.totalItems, page, limit);
    }
  }

  /** Twelve matching videos, ten per page: whenever `find` accepts the sort,
      page 2 holds 2 of them, out of 2 pages. */
  lemma TwelveMatchesSecondPage(s: Store, f: Filters, sort: JsValue)
    requires Consistent(s)
    requires PaginatedQuery(f).Success?
    requires s.count(PaginatedQuery(f).value) == Success(12)
    ensures GetPaginatedVideos(s, 2, 10, f, sort).Success? <==>
              s.find(PaginatedQuery(f).value, EffectiveSort(sort)).Success?
    ensures var r := GetPaginatedVideos(s, 2, 10, f, sort);
      r.Success? ==> |r.value.data| == 2 && r.value.totalItems == 12 && r.value.totalPages == 2 && r.value.currentPage == 2
  {
    PageContents(s, 2, 10, f, sort);
  }

  /** A store shaped like the driver: `find` refuses the sort `true`, which
      `countDocuments` never sees. It is consistent, and a page asked for with
      that sort ends in the refusal. */
  lemma SortRefusingStoreIsConsistent(docs: seq<Document>, page: int, limit: int)
    requires page >= 1 && limit >= 1
    ensures var s := Store((q: Query, sort: JsValue) =>
                             if sort == Bool(true) then Failure(StoreRejected("sort")) else Success(docs),
                           (q: Query) => Success(|docs|));
      && Consistent(s)
      && s.count(EmptyQuery).Success?
      && GetPaginatedVideos(s, page, limit, NoFilters, Bool(true)) == Failure(StoreRejected("sort"))
  {
    NoFiltersGiveEmptyQuery();
  }

  /** The pages from offset `skip` on, one after another, read until the first
      empty page. */
  function PagesFrom(all: seq<Document>, limit: nat, skip: nat): seq<Document>
    requires limit >= 1
    decreases |all| - skip
  {
    if skip >= |all| then [] else Window(all, skip, limit) + PagesFrom(all, limit, skip + limit)
  }

  /** Reading page after page, each starting where the previous one ended,
      yields every remaining document exactly once and in order. */
  lemma {:induction false} PagesFromCoverRest(all: seq<Document>, limit: nat, skip: nat)
    requires limit >= 1
    requires skip <= |all|
    ensures PagesFrom(all, limit, skip) == all[skip..]
    decreases |all| - skip
  {
    if skip < |all| {
      if skip + limit <= |all| {
        PagesFromCoverRest(all, limit, skip + limit);
        assert all[skip..skip + limit] + all[skip + limit..] == all[skip..];
      } else {
        assert PagesFrom(all, limit, skip + limit) == [];
      }
    }
  }
}

=== FILE: queries.dfy ===
/** Translation of a loose `filters` object into a MongoDB query document, as
    done by `getPaginatedVideos` and `getAllVideos`. Each filter field adds at
    most one clause, under a field path; two filter fields aimed at the same
    path overwrite one another, except the two publication bounds, which merge
    into one range. */
module VideoQueries {
  import opened Wrappers
  import opened JsValues
  import opened RepoErrors

  /** The document field paths the two builders write to. */
  datatype Path =
    | ChannelId
    | ChannelRef
    | Id
    | Url
    | Favorite
    | PublishedAt
    | Title
    | TitlePresentation
    | Visible
    | Applied
    | ChannelTargets
    | ChannelTargetLanguage
    | ChannelTypePlatforms
    | ChannelAdmChannels
    | ChannelAdmChannelId
    | ChannelName
    | ChannelNamePresentation

  /** The key each path is written under in the query document. */
  function PathName(p: Path): string {
    match p
    case ChannelId => "channel_id"
    case ChannelRef => "channel._id"
    case Id => "_id"
    case Url => "url"
    case Favorite => "favorite"
    case PublishedAt => "published_at"
    case Title => "title"
    case TitlePresentation => "title_presentation"
    case Visible => "visible"
    case Applied => "applied"
    case ChannelTargets => "channel.targets"
    case ChannelTargetLanguage => "channel.targetLanguage"
    case ChannelTypePlatforms => "channel.type_platforms"
    case ChannelAdmChannels => "channel.adm_channels"
    case ChannelAdmChannelId => "channel.adm_channel_id"
    case ChannelName => "channel.channel_name"
    case ChannelNamePresentation => "channel.channel_name_presentation"
  }

  /** A value placed in a clause. `ObjectIdOf` and `DateOf` stand for the
      uninterpreted coercions `new ObjectId(v)` and `new Date(v)`. */
  datatype Term =
    | Lit(v: JsValue)
    | ObjectIdOf(v: JsValue)
    | DateOf(v: JsValue)
    | List(items: seq<Term>)

  /** One query clause: `path: value`, `{$in: ...}`, `{$gte, $lte}`,
      `{$regex, $options}` or `{$elemMatch: {$or: [{_id: a}, ...]}}`. */
  datatype Clause =
    | Eq(term: Term)
    | In(values: Term)
    | Range(gte: Option<Term>, lte: Option<Term>)
    | Regex(pattern: JsValue, caseInsensitive: bool)
    | ElemMatchIdOr(alternatives: seq<Term>)

  /** A query document: at most one clause per field path. Writing a second
      clause to a path replaces the first, as assigning a JavaScript object
      property twice does. */
  datatype Query = Query(
    channelId: Option<Clause>,
    channelRef: Option<Clause>,
    id: Option<Clause>,
    url: Option<Clause>,
    favorite: Option<Clause>,
    publishedAt: Option<Clause>,
    title: Option<Clause>,
    titlePresentation: Option<Clause>,
    visible: Option<Clause>,
    applied: Option<Clause>,
    channelTargets: Option<Clause>,
    channelTargetLanguage: Option<Clause>,
    channelTypePlatforms: Option<Clause>,
    channelAdmChannels: Option<Clause>,
    channelAdmChannelId: Option<Clause>,
    channelName: Option<Clause>,
    channelNamePresentation: Option<Clause>)

  /** `{}`. */
  const EmptyQuery := Query(None, None, None, None, None, None, None, None, None, None, None, None, None, None, None, None, None)

  /** The clause under `p`, if any. */
  function Get(q: Query, p: Path): Option<Clause> {
    match p
    case ChannelId => q.channelId
    case ChannelRef => q.channelRef
    case Id => q.id
    case Url => q.url
    case Favorite => q.favorite
    case PublishedAt => q.publishedAt
    case Title => q.title
    case TitlePresentation => q.titlePresentation
    case Visible => q.visible
    case Applied => q.applied
    case ChannelTargets => q.channelTargets
    case ChannelTargetLanguage => q.channelTargetLanguage
    case ChannelTypePlatforms => q.channelTypePlatforms
    case ChannelAdmChannels => q.channelAdmChannels
    case ChannelAdmChannelId => q.channelAdmChannelId
    case ChannelName => q.channelName
    case ChannelNamePresentation => q.channelNamePresentation
  }

  /** Two queries with the same clause under every path are the same query. */
  lemma {:induction false} QueryExtensional(q1: Query, q2: Query)
    requires forall p :: Get(q1, p) == Get(q2, p)
    ensures q1 == q2
  {
    assert Get(q1, ChannelId) == Get(q2, ChannelId);
    assert Get(q1, ChannelRef) == Get(q2, ChannelRef);
    assert Get(q1, Id) == Get(q2, Id);
    assert Get(q1, Url) == Get(q2, Url);
    assert Get(q1, Favorite) == Get(q2, Favorite);
    assert Get(q1, PublishedAt) == Get(q2, PublishedAt);
    assert Get(q1, Title) == Get(q2, Title);
    assert Get(q1, TitlePresentation) == Get(q2, TitlePresentation);
    assert Get(q1, Visible) == Get(q2, Visible);
    assert Get(q1, Applied) == Get(q2, Applied);
    assert Get(q1, ChannelTargets) == Get(q2, ChannelTargets);
    assert Get(q1, ChannelTargetLanguage) == Get(q2, ChannelTargetLanguage);
    assert Get(q1, ChannelTypePlatforms) == Get(q2, ChannelTypePlatforms);
    assert Get(q1, ChannelAdmChannels) == Get(q2, ChannelAdmChannels);
    assert Get(q1, ChannelAdmChannelId) == Get(q2, ChannelAdmChannelId);
    assert Get(q1, ChannelName) == Get(q2, ChannelName);
    assert Get(q1, ChannelNamePresentation) == Get(q2, ChannelNamePresentation);
  }

  /** The `filters` argument; a field the caller leaves out is `Undefined`. */
  datatype Filters = Filters(
    channelId: JsValue,
    channelsIds: JsValue,
    id: JsValue,
    videosUrls: JsValue,
    favorite: JsValue,
    publishedAfter: JsValue,
    publishedBefore: JsValue,
    keywordsInTitle: JsValue,
    keywordsInTitlePresentation: JsValue,
    visible: JsValue,
    applied: JsValue,
    targets: JsValue,
    targetLanguage: JsValue,
    typePlatforms: JsValue,
    admChannelId: JsValue,
    channelName: JsValue,
    channelNamePresentation: JsValue)

  /** The default `filters = {}`. */
  const NoFilters := Filters(Undefined, Undefined, Undefined, Undefined, Undefined,
                             Undefined, Undefined, Undefined, Undefined, Undefined,
                             Undefined, Undefined, Undefined, Undefined, Undefined,
                             Undefined, Undefined)

  /** The default sort `{published_at: -1}`: newest first. */
  const DefaultSort := Obj(map["published_at" := Num(-1)])

  function When(active: bool, c: Clause): Option<Clause> {
    if active then Some(c) else None
  }

  /** The case-insensitive pattern clause used for every keyword filter. */
  function Keyword(v: JsValue): Clause {
    Regex(v, true)
  }

  /** The bound a publication filter contributes to the merged range. */
  function DateBound(v: JsValue): Option<Term> {
    if Truthy(v) then Some(DateOf(v)) else None
  }

  /** `ids.map((id) => new ObjectId(id))`. */
  function ObjectIdList(ids: seq<JsValue>): seq<Term>
  {
    seq(|ids|, i requires 0 <= i < |ids| => ObjectIdOf(ids[i]))
  }

  function ElemsOrEmpty(v: JsValue): seq<JsValue> {
    if v.Arr? then v.elems else []
  }

  /** `{...query.published_at, $lte: hi}`: the lower bound already written, if
      any, is kept; spreading an absent clause adds nothing. */
  function WithUpperBound(prev: Option<Clause>, hi: Term): Clause {
    var lo := if prev.Some? && prev.value.Range? then prev.value.gte else None;
    Range(lo, Some(hi))
  }

  /** A tri-state flag compared with `===`: only the strings "true" and "false"
      constrain the field. */
  function StrictTriState(v: JsValue): Option<Clause> {
    if v == Str("false") then Some(Eq(Lit(Bool(false))))
    else if v == Str("true") then Some(Eq(Lit(Bool(true))))
    else None
  }

  /** A tri-state flag compared with `==`. */
  function LooseTriState(v: JsValue): Option<Clause> {
    if LooseEqualsWord(v, "false") then Some(Eq(Lit(Bool(false))))
    else if LooseEqualsWord(v, "true") then Some(Eq(Lit(Bool(true))))
    else None
  }

  /** The paths both builders treat alike. */
  predicate IsSharedPath(p: Path) {
    match p
    case Url | PublishedAt | Title | TitlePresentation | ChannelTargets | ChannelTargetLanguage
       | ChannelTypePlatforms | ChannelName | ChannelNamePresentation => true
    case _ => false
  }

  /** The clause, per shared path, that both builders ask for: the url list, one
      range holding whichever publication bounds are given, the keyword
      patterns, and the channel scope and name filters. */
  function SharedRule(f: Filters, p: Path): Option<Clause>
    requires IsSharedPath(p)
  {
    match p
    case Url => When(Truthy(f.videosUrls), In(Lit(f.videosUrls)))
    case PublishedAt =>
      When(Truthy(f.publishedAfter) || Truthy(f.publishedBefore),
           Range(DateBound(f.publishedAfter), DateBound(f.publishedBefore)))
    case Title => When(Truthy(f.keywordsInTitle), Keyword(f.keywordsInTitle))
    case TitlePresentation =>
      When(Truthy(f.keywordsInTitlePresentation), Keyword(f.keywordsInTitlePresentation))
    case ChannelTargets => When(Truthy(f.targets), In(Lit(f.targets)))
    case ChannelTargetLanguage => When(Truthy(f.targetLanguage), Eq(Lit(f.targetLanguage)))
    case ChannelTypePlatforms => When(Truthy(f.typePlatforms), In(Lit(f.typePlatforms)))
    case ChannelName => When(Truthy(f.channelName), Keyword(f.channelName))
    case ChannelNamePresentation =>
      When(Truthy(f.channelNamePresentation), Keyword(f.channelNamePresentation))
  }

  /** What `getPaginatedVideos` asks of each path, field by field: a reference
      definition independent of the order in which the source writes them. */
  function PaginatedRule(f: Filters, p: Path): Option<Clause> {
    if IsSharedPath(p) then SharedRule(f, p)
    else match p
      case ChannelId => When(Truthy(f.channelId), Eq(Lit(f.channelId)))
      case ChannelRef => When(Truthy(f.channelsIds), In(List(ObjectIdList(ElemsOrEmpty(f.channelsIds)))))
      case Id => When(Truthy(f.id), Eq(ObjectIdOf(f.id)))
      case Favorite => When(Truthy(f.favorite), Eq(Lit(Bool(true))))
      case Visible => StrictTriState(f.visible)
      case Applied => StrictTriState(f.applied)
      case ChannelAdmChannels =>
        When(Truthy(f.admChannelId), ElemMatchIdOr([ObjectIdOf(f.admChannelId), Lit(f.admChannelId)]))
      case _ => None
  }

  /** What `getAllVideos` asks of each path, field by field. */
  function AllRule(f: Filters, p: Path): Option<Clause> {
    if IsSharedPath(p) then SharedRule(f, p)
    else match p
      case ChannelId =>
        if Truthy(f.channelsIds) then Some(In(Lit(f.channelsIds)))
        else When(Truthy(f.channelId), Eq(Lit(f.channelId)))
      case Visible => LooseTriState(f.visible)
      case ChannelAdmChannelId => When(Truthy(f.admChannelId), Eq(Lit(f.admChannelId)))
      case _ => None
  }

  /** The query built by `getPaginatedVideos`, filter by filter in the source's
      order. It fails only when `channels_ids` is truthy but not an array, where
      `.map` throws. */
  function PaginatedQuery(f: Filters): (r: Result<Query, RepoError>)
    ensures r.Failure? <==> Truthy(f.channelsIds) && !f.channelsIds.Arr?
    ensures r.Failure? ==> r.error == NotAnArray("channels_ids")
  {
    if Truthy(f.channelsIds) && !f.channelsIds.Arr? then
      Failure(NotAnArray("channels_ids"))
    else
      var q := EmptyQuery;
      var q := q.(channelId := if Truthy(f.channelId) then Some(Eq(Lit(f.channelId))) else q.channelId);
      var q := q.(channelRef := if Truthy(f.channelsIds) then Some(In(List(ObjectIdList(ElemsOrEmpty(f.channelsIds))))) else q.channelRef);
      var q := q.(id := if Truthy(f.id) then Some(Eq(ObjectIdOf(f.id))) else q.id);
      var q := q.(url := if Truthy(f.videosUrls) then Some(In(Lit(f.videosUrls))) else q.url);
      var q := q.(favorite := if Truthy(f.favorite) then Some(Eq(Lit(Bool(true)))) else q.favorite);
      var q := q.(publishedAt := if Truthy(f.publishedAfter) then Some(Range(Some(DateOf(f.publishedAfter)), None)) else q.publishedAt);
      var q := q.(publishedAt := if Truthy(f.publishedBefore) then Some(WithUpperBound(q.publishedAt, DateOf(f.publishedBefore))) else q.publishedAt);
      var q := q.(title := if Truthy(f.keywordsInTitle) then Some(Keyword(f.keywordsInTitle)) else q.title);
      var q := q.(titlePresentation := if Truthy(f.keywordsInTitlePresentation) then Some(Keyword(f.keywordsInTitlePresentation)) else q.titlePresentation);
      var q := q.(visible := if f.visible == Str("true") then Some(Eq(Lit(Bool(true)))) else q.visible);
      var q := q.(visible := if f.visible == Str("false") then Some(Eq(Lit(Bool(false)))) else q.visible);
      var q := q.(applied := if f.applied == Str("true") then Some(Eq(Lit(Bool(true)))) else q.applied);
      var q := q.(applied := if f.applied == Str("false") then Some(Eq(Lit(Bool(false)))) else q.applied);
      var q := q.(channelTargets := if Truthy(f.targets) then Some(In(Lit(f.targets))) else q.channelTargets);
      var q := q.(channelTargetLanguage := if Truthy(f.targetLanguage) then Some(Eq(Lit(f.targetLanguage))) else q.channelTargetLanguage);
      var q := q.(channelTypePlatforms := if Truthy(f.typePlatforms) then Some(In(Lit(f.typePlatforms))) else q.channelTypePlatforms);
      var q := q.(channelAdmChannels := if Truthy(f.admChannelId) then Some(ElemMatchIdOr([ObjectIdOf(f.admChannelId), Lit(f.admChannelId)])) else q.channelAdmChannels);
      var q := q.(channelName := if Truthy(f.channelName) then Some(Keyword(f.channelName)) else q.channelName);
      var q := q.(channelNamePresentation := if Truthy(f.channelNamePresentation) then Some(Keyword(f.channelNamePresentation)) else q.channelNamePresentation);
      Success(q)
  }

  /** The query built by `getAllVideos`, filter by filter in the source's order. */
  function AllQuery(f: Filters): Query {
    var q := EmptyQuery;
    var q := q.(channelId := if Truthy(f.channelId) then Some(Eq(Lit(f.channelId))) else q.channelId);
    var q := q.(channelId := if Truthy(f.channelsIds) then Some(In(Lit(f.channelsIds))) else q.channelId);
    var q := q.(url := if Truthy(f.videosUrls) then Some(In(Lit(f.videosUrls))) else q.url);
    var q := q.(publishedAt := if Truthy(f.publishedAfter) then Some(Range(Some(DateOf(f.publishedAfter)), None)) else q.publishedAt);
    var q := q.(publishedAt := if Truthy(f.publishedBefore) then Some(WithUpperBound(q.publishedAt, DateOf(f.publishedBefore))) else q.publishedAt);
    var q := q.(title := if Truthy(f.keywordsInTitle) then Some(Keyword(f.keywordsInTitle)) else q.title);
    var q := q.(titlePresentation := if Truthy(f.keywordsInTitlePresentation) then Some(Keyword(f.keywordsInTitlePresentation)) else q.titlePresentation);
    var q := q.(channelTargets := if Truthy(f.targets) then Some(In(Lit(f.targets))) else q.channelTargets);
    var q := q.(visible := if LooseEqualsWord(f.visible, "true") then Some(Eq(Lit(Bool(true)))) else q.visible);
    var q := q.(visible := if LooseEqualsWord(f.visible, "false") then Some(Eq(Lit(Bool(false)))) else q.visible);
    var q := q.(channelTargetLanguage := if Truthy(f.targetLanguage) then Some(Eq(Lit(f.targetLanguage))) else q.channelTargetLanguage);
    var q := q.(channelTypePlatforms := if Truthy(f.typePlatforms) then Some(In(Lit(f.typePlatforms))) else q.channelTypePlatforms);
    var q := q.(channelAdmChannelId := if Truthy(f.admChannelId) then Some(Eq(Lit(f.admChannelId))) else q.channelAdmChannelId);
    var q := q.(channelName := if Truthy(f.channelName) then Some(Keyword(f.channelName)) else q.channelName);
    var q := q.(channelNamePresentation := if Truthy(f.channelNamePresentation) then Some(Keyword(f.channelNamePresentation)) else q.channelNamePresentation);
    q
  }

  /** The sequential, overwriting construction of `getPaginatedVideos` asks of
      every path exactly what the field-by-field rule says. */
  lemma PaginatedQueryFollowsRule(f: Filters)
    requires PaginatedQuery(f).Success?
    ensures forall p :: Get(PaginatedQuery(f).value, p) == PaginatedRule(f, p)
  {
    var q := PaginatedQuery(f).value;
    forall p ensures Get(q, p) == PaginatedRule(f, p) {
      match p
      case ChannelId =>
      case ChannelRef =>
      case Id =>
      case Url =>
      case Favorite =>
      case PublishedAt =>
      case Title =>
      case TitlePresentation =>
      case Visible =>
      case Applied =>
      case ChannelTargets =>
      case ChannelTargetLanguage =>
      case ChannelTypePlatforms =>
      case ChannelAdmChannels =>
      case ChannelAdmChannelId =>
      case ChannelName =>
      case ChannelNamePresentation =>
    }
  }

  /** The sequential, overwriting construction of `getAllVideos` asks of every
      path exactly what the field-by-field rule says. */
  lemma AllQueryFollowsRule(f: Filters)
    ensures forall p :: Get(AllQuery(f), p) == AllRule(f, p)
  {
    var q := AllQuery(f);
    forall p ensures Get(q, p) == AllRule(f, p) {
      match p
      case ChannelId =>
      case ChannelRef =>
      case Id =>
      case Url =>
      case Favorite =>
      case PublishedAt =>
      case Title =>
      case TitlePresentation =>
      case Visible =>
      case Applied =>
      case ChannelTargets =>
      case ChannelTargetLanguage =>
      case ChannelTypePlatforms =>
      case ChannelAdmChannels =>
      case ChannelAdmChannelId =>
      case ChannelName =>
      case ChannelNamePresentation =>
    }
  }

  /** A falsy filter value reads as absent. */
  function Unset(v: JsValue): JsValue {
    if Truthy(v) then v else Undefined
  }

  /** The filters with every falsy value removed. */
  function Normalize(f: Filters): Filters {
    Filters(
      Unset(f.channelId),
      Unset(f.channelsIds),
      Unset(f.id),
      Unset(f.videosUrls),
      Unset(f.favorite),
      Unset(f.publishedAfter),
      Unset(f.publishedBefore),
      Unset(f.keywordsInTitle),
      Unset(f.keywordsInTitlePresentation),
      Unset(f.visible),
      Unset(f.applied),
      Unset(f.targets),
      Unset(f.targetLanguage),
      Unset(f.typePlatforms),
      Unset(f.admChannelId),
      Unset(f.channelName),
      Unset(f.channelNamePresentation))
  }

  /** Per path, neither rule tells a falsy filter value from an absent one. */
  lemma NormalizeKeepsRules(f: Filters, p: Path)
    ensures PaginatedRule(Normalize(f), p) == PaginatedRule(f, p)
    ensures AllRule(Normalize(f), p) == AllRule(f, p)
  {
    var g := Normalize(f);
    match p
    case Visible =>
      assert LooseTriState(g.visible) == LooseTriState(f.visible);
    case Applied =>
      assert StrictTriState(g.applied) == StrictTriState(f.applied);
    case _ =>
  }

  /** A falsy filter (`""`, `0`, `false`, `null`, NaN) constrains nothing: both
      builders produce the same query as when that filter is left out. */
  lemma FalsyFiltersAreUnset(f: Filters)
    ensures PaginatedQuery(Normalize(f)) == PaginatedQuery(f)
    ensures AllQuery(Normalize(f)) == AllQuery(f)
  {
    var g := Normalize(f);
    forall p ensures PaginatedRule(g, p) == PaginatedRule(f, p) && AllRule(g, p) == AllRule(f, p) {
      NormalizeKeepsRules(f, p);
    }
    if PaginatedQuery(f).Success? {
      PaginatedQueryFollowsRule(f);
      PaginatedQueryFollowsRule(g);
      QueryExtensional(PaginatedQuery(g).value, PaginatedQuery(f).value);
    }
    AllQueryFollowsRule(f);
    AllQueryFollowsRule(g);
    QueryExtensional(AllQuery(g), AllQuery(f));
  }

  /** With the default `filters = {}` both queries are empty. */
  lemma NoFiltersGiveEmptyQuery()
    ensures PaginatedQuery(NoFilters) == Success(EmptyQuery)
    ensures AllQuery(NoFilters) == EmptyQuery
  {
    PaginatedQueryFollowsRule(NoFilters);
    AllQueryFollowsRule(NoFilters);
    QueryExtensional(PaginatedQuery(NoFilters).value, EmptyQuery);
    QueryExtensional(AllQuery(NoFilters), EmptyQuery);
  }

  /** `visible` and `applied` are tri-state: the string "true" asks for `true`,
      the string "false" for `false`, and any other value, the boolean `true`
      included, asks for nothing. `favorite` only ever asks for `true`.
      `getAllVideos` has no `applied` or `favorite` filter, and its loose
      comparison never matches a boolean either. */
  lemma FlagFiltersAreTriState(f: Filters)
    requires PaginatedQuery(f).Success?
    ensures Get(PaginatedQuery(f).value, Visible) == Some(Eq(Lit(Bool(true)))) <==> f.visible == Str("true")
    ensures Get(PaginatedQuery(f).value, Visible) == Some(Eq(Lit(Bool(false)))) <==> f.visible == Str("false")
    ensures Get(PaginatedQuery(f).value, Visible).None? <==> f.visible != Str("true") && f.visible != Str("false")
    ensures Get(PaginatedQuery(f).value, Applied) == Some(Eq(Lit(Bool(true)))) <==> f.applied == Str("true")
    ensures Get(PaginatedQuery(f).value, Applied) == Some(Eq(Lit(Bool(false)))) <==> f.applied == Str("false")
    ensures Get(PaginatedQuery(f).value, Applied).None? <==> f.applied != Str("true") && f.applied != Str("false")
    ensures Get(PaginatedQuery(f).value, Favorite).Some? <==> Truthy(f.favorite)
    ensures Get(PaginatedQuery(f).value, Favorite) != Some(Eq(Lit(Bool(false))))
    ensures f.visible.Bool? ==> Get(PaginatedQuery(f).value, Visible).None? && Get(AllQuery(f), Visible).None?
    ensures Get(AllQuery(f), Applied).None? && Get(AllQuery(f), Favorite).None?
  {
    PaginatedQueryFollowsRule(f);
    AllQueryFollowsRule(f);
  }

  /** `published_after` and `published_before` merge into one range on
      `published_at`, in both builders: it carries `$gte` exactly when the first
      is given and `$lte` exactly when the second is. */
  lemma PublicationBoundsMerge(f: Filters)
    requires PaginatedQuery(f).Success?
    ensures var c := Get(PaginatedQuery(f).value, PublishedAt);
      && (c.Some? <==> Truthy(f.publishedAfter) || Truthy(f.publishedBefore))
      && (c.Some? ==> c.value.Range?
                      && (c.value.gte.Some? <==> Truthy(f.publishedAfter))
                      && (c.value.lte.Some? <==> Truthy(f.publishedBefore))
                      && (c.value.gte.Some? ==> c.value.gte.value == DateOf(f.publishedAfter))
                      && (c.value.lte.Some? ==> c.value.lte.value == DateOf(f.publishedBefore)))
    ensures Get(AllQuery(f), PublishedAt) == Get(PaginatedQuery(f).value, PublishedAt)
  {
    PaginatedQueryFollowsRule(f);
    AllQueryFollowsRule(f);
  }

  /** In `getAllVideos`, `channels_ids` writes the `channel_id` key and so
      replaces any `channel_id` clause; in `getPaginatedVideos` it writes
      `channel._id`, a different key, and both clauses stay. */
  lemma ChannelFiltersKeys(f: Filters)
    ensures Truthy(f.channelsIds) ==> Get(AllQuery(f), ChannelId) == Some(In(Lit(f.channelsIds)))
    ensures Get(AllQuery(f), ChannelRef).None?
    ensures PathName(ChannelRef) != PathName(ChannelId)
    ensures PaginatedQuery(f).Success? && Truthy(f.channelId) && Truthy(f.channelsIds) ==>
              && Get(PaginatedQuery(f).value, ChannelId) == Some(Eq(Lit(f.channelId)))
              && Get(PaginatedQuery(f).value, ChannelRef)
                 == Some(In(List(ObjectIdList(f.channelsIds.elems))))
  {
    AllQueryFollowsRule(f);
    if PaginatedQuery(f).Success? {
      PaginatedQueryFollowsRule(f);
    }
    assert PathName(ChannelRef)[8] != PathName(ChannelId)[8];
  }

  /** The two builders agree on every shared path; they agree on `channel_id`
      when no `channels_ids` is given, and on `visible` unless it is an array. */
  lemma BuildersAgree(f: Filters)
    requires PaginatedQuery(f).Success?
    ensures forall p :: IsSharedPath(p) ==> Get(PaginatedQuery(f).value, p) == Get(AllQuery(f), p)
    ensures !Truthy(f.channelsIds) ==> Get(PaginatedQuery(f).value, ChannelId) == Get(AllQuery(f), ChannelId)
    ensures !f.visible.Arr? ==> Get(PaginatedQuery(f).value, Visible) == Get(AllQuery(f), Visible)
  {
    PaginatedQueryFollowsRule(f);
    AllQueryFollowsRule(f);
    LooseEqualsWordCharacterized(f.visible, "true");
    LooseEqualsWordCharacterized(f.visible, "false");
  }

  /** A one-element array `["true"]` as `visible` is loosely equal to "true":
      `getAllVideos` then asks for visible videos while `getPaginatedVideos`
      asks for nothing. */
  lemma ArrayVisibleSplitsBuilders()
    ensures var f := NoFilters.(visible := Arr([Str("true")]));
      && Get(AllQuery(f), Visible) == Some(Eq(Lit(Bool(true))))
      && PaginatedQuery(f).Success?
      && Get(PaginatedQuery(f).value, Visible).None?
  {
    var f := NoFilters.(visible := Arr([Str("true")]));
    SingletonArrayLooselyEqualsWord("true");
    assert !LooseEqualsWord(f.visible, "false");
    AllQueryFollowsRule(f);
    PaginatedQueryFollowsRule(f);
  }

  /** A filter value `f` sets is still set, to the same value, in `g`. */
  predicate Keeps(fv: JsValue, gv: JsValue) {
    fv == Undefined || gv == fv
  }

  /** `g` keeps every filter `f` sets, and may set more. */
  ghost predicate Extends(g: Filters, f: Filters) {
    && Keeps(f.channelId, g.channelId)
    && Keeps(f.channelsIds, g.channelsIds)
    && Keeps(f.id, g.id)
    && Keeps(f.videosUrls, g.videosUrls)
    && Keeps(f.favorite, g.favorite)
    && Keeps(f.publishedAfter, g.publishedAfter)
    && Keeps(f.publishedBefore, g.publishedBefore)
    && Keeps(f.keywordsInTitle, g.keywordsInTitle)
    && Keeps(f.keywordsInTitlePresentation, g.keywordsInTitlePresentation)
    && Keeps(f.visible, g.visible)
    && Keeps(f.applied, g.applied)
    && Keeps(f.targets, g.targets)
    && Keeps(f.targetLanguage, g.targetLanguage)
    && Keeps(f.typePlatforms, g.typePlatforms)
    && Keeps(f.admChannelId, g.admChannelId)
    && Keeps(f.channelName, g.channelName)
    && Keeps(f.channelNamePresentation, g.channelNamePresentation)
  }

  /** `c2` asks at least what `c1` asks: the same clause, or a range keeping
      each bound `c1` has. */
  predicate Tightens(c2: Clause, c1: Clause) {
    || c2 == c1
    || (&& c1.Range? && c2.Range?
        && (c1.gte.Some? ==> c2.gte == c1.gte)
        && (c1.lte.Some? ==> c2.lte == c1.lte))
  }

  /** Every clause of `q1` is kept or tightened in `q2`. */
  ghost predicate Narrows(q2: Query, q1: Query) {
    forall p :: Get(q1, p).Some? ==> Get(q2, p).Some? && Tightens(Get(q2, p).value, Get(q1, p).value)
  }

  /** Per path, the paginated rule of `g` keeps or tightens that of `f`. */
  lemma PaginatedRuleNarrows(f: Filters, g: Filters, p: Path)
    requires Extends(g, f)
    ensures PaginatedRule(f, p).Some? ==>
              PaginatedRule(g, p).Some? && Tightens(PaginatedRule(g, p).value, PaginatedRule(f, p).value)
  {
    match p
    case ChannelId =>
      assert Keeps(f.channelId, g.channelId);
    case ChannelRef =>
      assert Keeps(f.channelsIds, g.channelsIds);
    case Id =>
      assert Keeps(f.id, g.id);
    case Url =>
      assert Keeps(f.videosUrls, g.videosUrls);
    case Favorite =>
      assert Keeps(f.favorite, g.favorite);
    case PublishedAt =>
      assert Keeps(f.publishedAfter, g.publishedAfter);
      assert Keeps(f.publishedBefore, g.publishedBefore);
    case Title =>
      assert Keeps(f.keywordsInTitle, g.keywordsInTitle);
    case TitlePresentation =>
      assert Keeps(f.keywordsInTitlePresentation, g.keywordsInTitlePresentation);
    case Visible =>
      assert Keeps(f.visible, g.visible);
    case Applied =>
      assert Keeps(f.applied, g.applied);
    case ChannelTargets =>
      assert Keeps(f.targets, g.targets);
    case ChannelTargetLanguage =>
      assert Keeps(f.targetLanguage, g.targetLanguage);
    case ChannelTypePlatforms =>
      assert Keeps(f.typePlatforms, g.typePlatforms);
    case ChannelAdmChannels =>
      assert Keeps(f.admChannelId, g.admChannelId);
    case ChannelAdmChannelId =>
      assert Keeps(f.admChannelId, g.admChannelId);
    case ChannelName =>
      assert Keeps(f.channelName, g.channelName);
    case ChannelNamePresentation =>
      assert Keeps(f.channelNamePresentation, g.channelNamePresentation);
  }

  /** Setting one more filter in `getPaginatedVideos` only adds or tightens
      clauses, so it can never widen the result. */
  lemma PaginatedQueryNarrows(f: Filters, g: Filters)
    requires Extends(g, f)
    requires PaginatedQuery(g).Success?
    ensures PaginatedQuery(f).Success?
    ensures Narrows(PaginatedQuery(g).value, PaginatedQuery(f).value)
  {
    assert Keeps(f.channelsIds, g.channelsIds);
    PaginatedQueryFollowsRule(f);
    PaginatedQueryFollowsRule(g);
    forall p ensures Get(PaginatedQuery(f).value, p).Some? ==>
        Get(PaginatedQuery(g).value, p).Some?
        && Tightens(Get(PaginatedQuery(g).value, p).value, Get(PaginatedQuery(f).value, p).value)
    {
      PaginatedRuleNarrows(f, g, p);
    }
  }

  /** Per path, the `getAllVideos` rule of `g` keeps or tightens that of `f`,
      unless `channels_ids` newly displaces a lone `channel_id`. */
  lemma AllRuleNarrows(f: Filters, g: Filters, p: Path)
    requires Extends(g, f)
    requires !(Truthy(f.channelId) && !Truthy(f.channelsIds) && Truthy(g.channelsIds))
    ensures AllRule(f, p).Some? ==>
              AllRule(g, p).Some? && Tightens(AllRule(g, p).value, AllRule(f, p).value)
  {
    match p
    case ChannelId =>
      assert Keeps(f.channelId, g.channelId);
      assert Keeps(f.channelsIds, g.channelsIds);
    case ChannelRef =>
      assert Keeps(f.channelsIds, g.channelsIds);
    case Id =>
      assert Keeps(f.id, g.id);
    case Url =>
      assert Keeps(f.videosUrls, g.videosUrls);
    case Favorite =>
      assert Keeps(f.favorite, g.favorite);
    case PublishedAt =>
      assert Keeps(f.publishedAfter, g.publishedAfter);
      assert Keeps(f.publishedBefore, g.publishedBefore);
    case Title =>
      assert Keeps(f.keywordsInTitle, g.keywordsInTitle);
    case TitlePresentation =>
      assert Keeps(f.keywordsInTitlePresentation, g.keywordsInTitlePresentation);
    case Visible =>
      assert Keeps(f.visible, g.visible);
    case Applied =>
      assert Keeps(f.applied, g.applied);
    case ChannelTargets =>
      assert Keeps(f.targets, g.targets);
    case ChannelTargetLanguage =>
      assert Keeps(f.targetLanguage, g.targetLanguage);
    case ChannelTypePlatforms =>
      assert Keeps(f.typePlatforms, g.typePlatforms);
    case ChannelAdmChannels =>
      assert Keeps(f.admChannelId, g.admChannelId);
    case ChannelAdmChannelId =>
      assert Keeps(f.admChannelId, g.admChannelId);
    case ChannelName =>
      assert Keeps(f.channelName, g.channelName);
    case ChannelNamePresentation =>
      assert Keeps(f.channelNamePresentation, g.channelNamePresentation);
  }

  /** The same holds in `getAllVideos`, except when `channels_ids` is added to a
      `channel_id` filter that stood alone: it then replaces that clause. */
  lemma AllQueryNarrows(f: Filters, g: Filters)
    requires Extends(g, f)
    requires !(Truthy(f.channelId) && !Truthy(f.channelsIds) && Truthy(g.channelsIds))
    ensures Narrows(AllQuery(g), AllQuery(f))
  {
    AllQueryFollowsRule(f);
    AllQueryFollowsRule(g);
    forall p ensures Get(AllQuery(f), p).Some? ==>
        Get(AllQuery(g), p).Some? && Tightens(Get(AllQuery(g), p).value, Get(AllQuery(f), p).value)
    {
      AllRuleNarrows(f, g, p);
    }
  }

  /** Adding `channels_ids: ["B"]` to `channel_id: "A"` in `getAllVideos` drops
      the `channel_id: "A"` clause instead of adding to it. */
  lemma AllQueryChannelsIdsReplacesChannelId()
    ensures var f := NoFilters.(channelId := Str("A"));
            var g := f.(channelsIds := Arr([Str("B")]));
      && Extends(g, f)
      && Get(AllQuery(f), ChannelId) == Some(Eq(Lit(Str("A"))))
      && Get(AllQuery(g), ChannelId) == Some(In(Lit(Arr([Str("B")]))))
      && !Narrows(AllQuery(g), AllQuery(f))
  {
    var f := NoFilters.(channelId := Str("A"));
    var g := f.(channelsIds := Arr([Str("B")]));
    AllQueryFollowsRule(f);
    AllQueryFollowsRule(g);
    assert !Tightens(Get(AllQuery(g), ChannelId).value, Get(AllQuery(f), ChannelId).value);
  }

  /** `options.sort || {published_at: -1}`: a truthy sort is used exactly as
      given, never merged with the default. */
  function EffectiveSort(sort: JsValue): JsValue
  {
    if Truthy(sort) then sort else DefaultSort
  }
}

=== FILE: wrappers.dfy ===
/** Optional values and fallible results, used for JavaScript `undefined`-or-value
    positions and for the exceptions the repository throws. */
module Wrappers {

  datatype Option<+T> = None | Some(value: T)

  datatype Result<+R, +E> = Success(value: R) | Failure(error: E)
}

/** The ways a repository call can end in an exception. */
module RepoErrors {

  datatype RepoError =
      /** The explicit `Array.isArray(data) && data.length > 0` guard failed. */
    | InvalidArgument
      /** `.map` called on a value that is not an array (a JavaScript TypeError). */
    | NotAnArray(field: string)
      /** A property read or object destructuring on `null` or `undefined`
          (a JavaScript TypeError). */
    | PropertyOfNullish
      /** `findOneAndUpdate` matched no channel. */
    | ChannelNotFound
      /** The store refuses `$inc` on a field holding a non-numeric value. */
    | IncOnNonNumeric
      /** A reference to a name that is not declared (a JavaScript ReferenceError). */
    | UndefinedVariable(name: string)
      /** The store refused a command, such as a query whose `$in` operand is
          not an array or whose `$regex` pattern does not compile. */
    | StoreRejected(reason: string)
}

=== FILE: write_ops.dfy ===
/** The write commands `insertVideos`, `bulkInsert`, `update` and `bulkUpdate`
    hand to the store, built from their loosely typed arguments. Running the
    commands is the store's business; the `$set` semantics used to state what an
    update leaves untouched is `ApplySet`. */
module WriteOps {
  import opened Wrappers
  import opened JsValues
  import opened RepoErrors
  import opened VideoQueries

  /** One write: `{insertOne: {document}}` or
      `{updateOne: {filter: {_id: new ObjectId(id)}, update: {$set: fields}}}`. */
  datatype WriteOp =
    | InsertOne(document: JsValue)
    | UpdateOne(idFilter: Term, fields: Document)

  /** `insertMany(documents, {ordered})`. */
  datatype InsertMany = InsertMany(documents: seq<JsValue>, ordered: bool)

  /** `Array.isArray(data) && data.length > 0`. */
  predicate IsNonEmptyArray(v: JsValue) {
    v.Arr? && |v.elems| > 0
  }

  /** `insertVideos(data)`: the argument is checked before any store call, and
      the documents go to one ordered `insertMany`, as given. */
  function InsertVideos(data: JsValue): (r: Result<InsertMany, RepoError>)
    ensures r.Failure? <==> !IsNonEmptyArray(data)
    ensures r.Failure? ==> r.error == InvalidArgument
    ensures r.Success? ==> r.value.documents == data.elems && r.value.ordered
  {
    if !IsNonEmptyArray(data) then Failure(InvalidArgument)
    else Success(InsertMany(data.elems, true))
  }

  /** `docs.map((doc) => ({insertOne: {document: doc}}))`. */
  function InsertOps(docs: seq<JsValue>): (r: seq<WriteOp>)
    ensures |r| == |docs|
    ensures forall i :: 0 <= i < |docs| ==> r[i] == InsertOne(docs[i])
  {
    if |docs| == 0 then [] else [InsertOne(docs[0])] + InsertOps(docs[1..])
  }

  /** `bulkInsert(data)`: the same check as `insertVideos`, then one `insertOne`
      per document, in the input order. */
  function BulkInsert(data: JsValue): (r: Result<seq<WriteOp>, RepoError>)
    ensures r.Failure? <==> !IsNonEmptyArray(data)
    ensures r.Failure? ==> r.error == InvalidArgument
    ensures r.Success? ==> |r.value| == |data.elems|
    ensures r.Success? ==> forall i :: 0 <= i < |data.elems| ==> r.value[i] == InsertOne(data.elems[i])
  {
    if !IsNonEmptyArray(data) then Failure(InvalidArgument)
    else Success(InsertOps(data.elems))
  }

  /** The documents a batch inserts, in batch order. */
  function InsertedDocuments(ops: seq<WriteOp>): seq<JsValue> {
    if |ops| == 0 then []
    else (if ops[0].InsertOne? then [ops[0].document] else []) + InsertedDocuments(ops[1..])
  }

  lemma {:induction false} InsertOpsRoundTrip(docs: seq<JsValue>)
    ensures InsertedDocuments(InsertOps(docs)) == docs
  {
    if |docs| > 0 {
      InsertOpsRoundTrip(docs[1..]);
      assert InsertOps(docs)[1..] == InsertOps(docs[1..]);
    }
  }

  /** The batch `bulkInsert` builds inserts exactly the input documents, in
      order, and it is accepted exactly when `insertVideos` accepts the same
      input, which inserts the same documents. */
  lemma BulkInsertRoundTrip(data: JsValue)
    ensures BulkInsert(data).Success? <==> InsertVideos(data).Success?
    ensures BulkInsert(data).Success? ==>
              InsertedDocuments(BulkInsert(data).value) == data.elems == InsertVideos(data).value.documents
  {
    if IsNonEmptyArray(data) {
      InsertOpsRoundTrip(data.elems);
    }
  }

  /** Own enumerable properties of an array or string: index keys "0", "1", .... */
  function IndexKeyed(es: seq<JsValue>): (r: Document)
    ensures forall k :: k in r ==> AllDigits(k)
  {
    if |es| == 0 then map[]
    else IndexKeyed(es[..|es| - 1])[NatToDecimal(|es| - 1) := es[|es| - 1]]
  }

  /** The own enumerable properties object rest-destructuring copies out of a
      value; `null` and `undefined` cannot be destructured. */
  function OwnFields(v: JsValue): (r: Option<Document>)
    ensures r.None? <==> v.Undefined? || v.Null?
    ensures v.Obj? ==> r == Some(v.fields)
    ensures r.Some? && !v.Obj? ==> "_id" !in r.value
  {
    assert !IsDigit("_id"[0]);
    match v
    case Undefined => None
    case Null => None
    case Obj(m) => Some(m)
    case Arr(es) => Some(IndexKeyed(es))
    case Str(s) => Some(IndexKeyed(seq(|s|, i requires 0 <= i < |s| => Str([s[i]]))))
    case _ => Some(map[])
  }

  /** `v._id`: only an object can carry an own `_id`. */
  function IdOf(v: JsValue): JsValue {
    if v.Obj? then FieldOf(v.fields, "_id") else Undefined
  }

  /** `update(updateData)`: `{_id, ...updates} = updateData`, then one
      `updateOne` keyed by the `_id` whose `$set` is every other field. */
  function Update(item: JsValue): (r: Result<WriteOp, RepoError>)
    ensures r.Failure? <==> item.Undefined? || item.Null?
    ensures r.Failure? ==> r.error == PropertyOfNullish
    ensures r.Success? ==> r.value.UpdateOne? && r.value.idFilter == ObjectIdOf(IdOf(item))
    ensures r.Success? ==> "_id" !in r.value.fields
    ensures r.Success? && item.Obj? ==>
              forall k :: k in r.value.fields <==> k in item.fields && k != "_id"
    ensures r.Success? && item.Obj? ==>
              forall k :: k in r.value.fields ==> r.value.fields[k] == item.fields[k]
  {
    match OwnFields(item)
    case None => Failure(PropertyOfNullish)
    case Some(fields) => Success(UpdateOne(ObjectIdOf(IdOf(item)), fields - {"_id"}))
  }

  /** The value the store keeps for a supplied field: the driver writes
      `undefined` as `null`. */
  function StoredValue(v: JsValue): JsValue {
    if v.Undefined? then Null else v
  }

  /** `$set` of top-level fields on a stored document. */
  function ApplySet(stored: Document, update: Document): (r: Document)
    ensures forall k :: k in r <==> k in stored || k in update
    ensures forall k :: k in update ==> r[k] == StoredValue(update[k]) && !r[k].Undefined?
    ensures forall k :: k in stored && k !in update ==> r[k] == stored[k]
  {
    stored + map k | k in update :: StoredValue(update[k])
  }

  /** Applying the update built from an object to a stored document sets every
      supplied field but `_id`, keeps the stored `_id`, and leaves every field
      the object does not mention as it was. */
  lemma UpdateKeepsIdAndUntouchedFields(stored: Document, item: Document)
    ensures Update(Obj(item)).Success?
    ensures var after := ApplySet(stored, Update(Obj(item)).value.fields);
      && FieldOf(after, "_id") == FieldOf(stored, "_id")
      && (forall k :: k in item && k != "_id" ==> k in after && after[k] == StoredValue(item[k]))
      && (forall k :: k in stored && k !in item ==> k in after && after[k] == stored[k])
      && (forall k :: k in after ==> k in stored || k in item)
  {
  }

  /** The item can be put back together from its update: the filter's `_id`
      and the `$set` fields. */
  lemma UpdateRoundTrip(item: Document)
    requires "_id" in item
    ensures Update(Obj(item)).Success?
    ensures var op := Update(Obj(item)).value;
      op.fields["_id" := op.idFilter.v] == item
  {
    var op := Update(Obj(item)).value;
    assert op.fields["_id" := op.idFilter.v].Keys == item.Keys;
  }

  /** The per-item updates of `bulkUpdate`, stopping at the first item that
      cannot be destructured. */
  function UpdateOps(items: seq<JsValue>): (r: Result<seq<WriteOp>, RepoError>)
    ensures r.Failure? <==> exists i :: 0 <= i < |items| && (items[i].Undefined? || items[i].Null?)
    ensures r.Failure? ==> r.error == PropertyOfNullish
    ensures r.Success? ==> |r.value| == |items|
    ensures r.Success? ==> forall i :: 0 <= i < |items| ==> Update(items[i]) == Success(r.value[i])
  {
    if |items| == 0 then Success([])
    else match Update(items[0])
      case Failure(e) => Failure(e)
      case Success(op) =>
        match UpdateOps(items[1..])
        case Failure(e) =>
          assert exists i :: 0 <= i < |items[1..]| && (items[1..][i].Undefined? || items[1..][i].Null?);
          Failure(e)
        case Success(ops) => Success([op] + ops)
  }

  /** `bulkUpdate(items)`: one `updateOne` per item, in order, each shaped
      exactly as `update` shapes it. `items.map` is a property read, so it
      throws on `null` and `undefined` as any such read does, and on any other
      non-array because it is not a function there. */
  function BulkUpdate(items: JsValue): (r: Result<seq<WriteOp>, RepoError>)
    ensures items.Undefined? || items.Null? ==> r == Failure(PropertyOfNullish)
    ensures !items.Arr? && !items.Undefined? && !items.Null? ==> r == Failure(NotAnArray("items"))
    ensures items.Arr? ==> r == UpdateOps(items.elems)
  {
    if items.Undefined? || items.Null? then Failure(PropertyOfNullish)
    else if !items.Arr? then Failure(NotAnArray("items"))
    else UpdateOps(items.elems)
  }
}
